=== FILE: README.md ===
# lambdamu: lambda/mu parameter layout and validation

This project models the core of CAFE's `lambdamu` command (`cafe/lambdamu.cpp`).
The command fits birth (lambda) and death (mu) rates of gene families.
It works in one of four structural cases, depending on whether a lambda tree
is given (tree-specific rates) and whether the families are clustered into K
rate classes with K mixture weights.

- `lambdamu_args::get_num_params` (`Counting.GetNumParams`) is the number of
  free parameters the search path expects.
- `lambdamu_prepare_search` (`LambdaMu.PrepareSearch`) readies the parameter
  record for the optimiser.
- `lambda_arg_base::validate_parameter_count` (`Validation.Validate`,
  `Validation.Render`) compares the number of values the user supplied with
  the expected count. On a mismatch it produces the error text.
- `lambdamu_set` (`LambdaMu.Set`) is set mode. It validates the user's
  values and copies them into the flat parameter vector. It has four
  branches. `Layout.Plan` describes each branch's copies as a list of
  `Copy(family, offset, count)` records. `Layout.Apply` carries them out in
  order.

Rates and weights are only ever copied, so their element type is a type
parameter `T`. `zero` is the value that `vector::resize(1)` appends to an
empty vector. `blank` is the default slot value the parameter vector is
filled with before copying. The source changes fields of the global record
before it throws. So every operation returns an `Outcome`: the record as the
call leaves it, plus the error, if any. A copy that would write past the end
of the vector is undefined behaviour in C++. The model reports it as an
`Overrun` error instead. It reports a copy of no values that starts past
the end too, although that copy writes nothing (see "Left out").
`Layout.PlanInBounds` and
`LambdaMuProperties.SetNeverOverruns` show it cannot happen once the record's
lambda count equals the number of lambdas supplied.

The source does not enforce the condition that the record's lambda count
equals the number of lambdas supplied. With a tree, the tree fixes
`num_lambdas`, while `-l` fixes the lambdas. When the two differ and more
mus are supplied than `-eqbg` sets aside, set mode can really write past the
vector (`Layout.TreeUnclusteredOverrunsIff`), or
write its mu copy over lambdas it has just copied
(`Layout.TreeClusteredOverlapsIff`). The
placement results below hold only under that condition.

`Counting.IntendedCount` states the count per family. Each free cluster
carries every lambda class and every mu class, except the equal-background
class when there is a tree. K - 1 weights are free. With a tree and no
clusters, `IntendedCount` subtracts `eqbg`. `get_num_params` does not (line
69), but `lambdamu_set` does (line 161). The model follows the code.
`Counting.GetNumParamsVersusIntended` and `LambdaMuProperties.SearchAndSetAgree`
state the difference: the search path sizes the vector `eqbg` slots larger
than the set path validates.

## Model

| member | source | states |
|---|---|---|
| Counting.GetNumParamsVersusIntended | cafe/lambdamu.cpp:47-72 | The search count equals `IntendedCount` (lambdas and free mus per free cluster, plus K - 1 weights) in three of the four cases. With a tree and no clusters it exceeds that count, and the set path's count, by `eqbg`. |
| Counting.GetNumParams | cafe/lambdamu.cpp:47-72 | The search count, branch by branch as the source computes it. Its properties are stated by `Counting.GetNumParamsVersusIntended` (above) and `Counting.FixedFirstClusterRemovesOneCluster` (below). |
| Counting.SetExpected | cafe/lambdamu.cpp:139-201 | The count each branch of the set path validates against (lines 139, 161, 183 and 201). `Counting.SetExpectedIsIntendedCount` (next row) states what it equals. |
| Counting.SetExpectedIsIntendedCount | cafe/lambdamu.cpp:139-201 | In every branch, the count the set path validates against is `IntendedCount`. |
| Counting.FixedFirstClusterRemovesOneCluster | cafe/lambdamu.cpp:51-66 | With clusters, fixing the first cluster (`-fixcluster0`) lowers the count by exactly one cluster's lambdas and free mus. |
| Validation.Validate | cafe/lambdamu.cpp:102-129 | It throws exactly when the supplied count differs from the expected one. The error carries both counts, the tree and the cluster count. Otherwise it has no effect. |
| Validation.Render | cafe/lambdamu.cpp:108-127 | The error text opens with "ERROR (<command>): The total number of parameters was not correct." and a newline, and ends with a newline. Its other properties are in the four rows below: `Validation.RenderReportsCounts`, `Validation.ProportionsMentionedIffClusters`, `Validation.BasisMentionsTreeIff` and `Validation.BasisJoinsOnlyWhenBoth`. |
| Validation.RenderReportsCounts | cafe/lambdamu.cpp:108-112 | The message contains " are <supplied> but <expected> were expected", and each number's decimal text reads back as that count. |
| Validation.ProportionsMentionedIffClusters | cafe/lambdamu.cpp:109-112 | " and proportions (-p)" directly follows the argument text if and only if there are clusters. |
| Validation.BasisMentionsTreeIff | cafe/lambdamu.cpp:113-119 | The basis starts with "tree " if and only if a lambda tree is set. |
| Validation.BasisJoinsOnlyWhenBoth | cafe/lambdamu.cpp:120-126 | " and " joins tree and clusters only when both are present. Without clusters only the tree part remains. Without a tree the basis never contains " and ". |
| Basics.ParseNatToString | cafe/lambdamu.cpp:112 | A count rendered with `ostream <<` denotes that count. |
| Config.Normalise | cafe/lambdamu.cpp:172-176 | Without a tree, lambdas and mus are cut or padded to one value each. The value kept is the first one supplied, or the value-initialised `zero` when none was. With a tree the arguments are untouched. |
| Layout.Apply | cafe/lambdamu.cpp:150-158 | Copying succeeds if and only if every copy fits in the vector, a copy of no values included. It keeps the length and leaves every slot no copy targets unchanged. A failure names the vector size it overran. |
| Layout.ApplyPlacesEveryCopy | cafe/lambdamu.cpp:191-198 | When copies are ordered and fit, every targeted slot holds the source value at its offset within the copy. |
| Layout.LastCopyFillsTail | cafe/lambdamu.cpp:198 | When the last copy ends at the vector's end, the vector's tail is that copy's values. |
| Layout.Plan | cafe/lambdamu.cpp:131-213 | Each branch reads only values its source vectors hold. It starts the lambdas at offset 0, then the mus, then (clustered) at most K - 1 weights. |
| Layout.CorrectedPlan | cafe/lambdamu.cpp:158 | The plan with the tree, clustered weight copy set to K - 1. Everything else is unchanged. |
| Layout.PlanInBounds | cafe/lambdamu.cpp:146-158 | If the record's lambda count equals the number of lambdas supplied, both plans' copies are ordered and non-overlapping and end within the validated count. Corrected, the weights end exactly at that count. |
| Layout.ClusteredSegments | cafe/lambdamu.cpp:147-158 | Clustered, when the record's lambda count equals the lambdas supplied: the lambda segment ends at or before the mus start. The mus end at or before the weights start, and K - 1 slots after that is the validated count. |
| Layout.UnclusteredSegments | cafe/lambdamu.cpp:160-170 | Unclustered, when the record's lambda count equals the lambdas supplied: the mus start where the lambdas end, and they end at the validated count. |
| Layout.NoTreeClusteredPlan | cafe/lambdamu.cpp:190-198 | Without a tree, with K - F free clusters: one lambda at 0, one mu at K - F, and K - 1 weights at 2(K - F). |
| Layout.TreeUnclusteredOverrunsIff | cafe/lambdamu.cpp:161-169 | Tree, no clusters, for every input: the mu copy ends past the validated count, and so the plan does not fit, if and only if the record's lambda count exceeds the number of lambdas supplied. The copy ends there with at least one mu to copy if and only if, in addition, more mus are supplied than `-eqbg` sets aside. |
| Layout.TreeClusteredOverlapsIff | cafe/lambdamu.cpp:147-153 | Tree, clusters, for every input with L lambdas supplied, a record lambda count n and K - F free clusters: the copies are out of order (the mu copy starts before the lambda copy ends, so any mus it copies overwrite lambdas) if and only if n(K - F) < min(L(K - F), L). |
| LambdaMu.PrepareSearch | cafe/lambdamu.cpp:75-100 | It rejects `-eqbg` without a tree, and only then. Without a tree it sets one lambda and one mu, even on error, and expects 2(K - F) + K - 1 values (2 unclustered). It records K and F when clustered. On success the vector holds exactly the count of default slots. |
| LambdaMu.StageSet | cafe/lambdamu.cpp:131-201 | The set path's bookkeeping before it validates: `-eqbg` without a tree is rejected, and only then. Otherwise it yields the normalised arguments and the count they must match. It leaves the vector alone, takes one lambda and one mu without a tree, records `eqbg` with a tree and records K and F when clustered. |
| LambdaMu.Finish | cafe/lambdamu.cpp:141-158 | A mismatch leaves the vector untouched. Success means the count matched and every copy fit. The vector is then the plan applied to default slots. |
| LambdaMu.Set | cafe/lambdamu.cpp:131-213 | `-eqbg` without a tree is rejected, and only then. A count mismatch happens exactly when the supplied count differs from the branch's expectation. Errors other than overruns leave the vector untouched. Success leaves exactly the supplied count of values. |
| LambdaMu.SetCorrected | cafe/lambdamu.cpp:131-213 | The same contract for the corrected weight copy. |
| LambdaMuProperties.SetSucceedsIffCountMatches | cafe/lambdamu.cpp:131-213 | When the record's lambda count equals the lambdas supplied (always so without a tree), the set, as written or corrected, succeeds if and only if `-eqbg` is not used without a tree and the supplied count is the branch's expected count. |
| LambdaMuProperties.SetNeverOverruns | cafe/lambdamu.cpp:146 | If the record's lambda count matches the lambdas supplied (forced without a tree), no branch writes past the vector, as written or corrected. |
| LambdaMuProperties.FinishPlacesValues | cafe/lambdamu.cpp:144-158 | After a successful finish with non-overlapping copies, targeted slots hold the copied values and the rest are default. |
| LambdaMuProperties.SetPlacesValues | cafe/lambdamu.cpp:131-213 | When the record's lambda count equals the lambdas supplied (always so without a tree), after a successful set the plan fits the vector. Every targeted slot holds the user value copied there, and every other slot keeps its default. |
| LambdaMuProperties.SetCorrectedPlacesValues | cafe/lambdamu.cpp:131-213 | The same for the corrected set, under the same condition on the record's lambda count. |
| LambdaMuProperties.NoTreeUnclusteredSet | cafe/lambdamu.cpp:200-210 | Without a tree, clusters or `-eqbg`: success if and only if exactly two values are supplied. The mismatch error reports (supplied, 2, no tree, 0 clusters). The vector is [first lambda, first mu]. |
| LambdaMuProperties.TreeUnclusteredSet | cafe/lambdamu.cpp:160-170 | Tree, no clusters, when the record's lambda count equals the lambdas supplied: success if and only if lambdas + mus - eqbg values are supplied. Every lambda is in place from 0, and the first mus - eqbg mus follow from the record's lambda count. |
| LambdaMuProperties.NoTreeClusteredCount | cafe/lambdamu.cpp:180-185 | No tree, clustered, without `-eqbg`: success if and only if 2(K - F) + K - 1 values are supplied. |
| LambdaMuProperties.NoTreeClusteredWeights | cafe/lambdamu.cpp:197-198 | No tree, clustered, without `-eqbg`, with 2(K - F) + K - 1 values supplied: the set succeeds and the vector ends with the first K - 1 weights, in order. |
| LambdaMuProperties.NoTreeClusteredBlocks | cafe/lambdamu.cpp:190-195 | No tree, K - F > 0, after a successful set: the lambda opens the vector and the mu opens the second block of K - F slots. The rest of both blocks is default. |
| LambdaMuProperties.SearchAndSetAgree | cafe/lambdamu.cpp:75-100 | Search and set reject `-eqbg` without a tree alike and collapse lambdas alike. Their counts agree except with a tree and no clusters, where search exceeds set by `eqbg`. |
| LambdaMuProperties.CorrectionOnlyChangesTreeClustered | cafe/lambdamu.cpp:158 | Outside the tree, clustered branch, the corrected set equals the set as written. |
| LambdaMuProperties.TreeClusteredDropsWeight | cafe/lambdamu.cpp:158 | As written, tree, one lambda, one mu under `-eqbg`, K = 2 weights, F = 0, record lambda count 1: the weight copy count is 0. The set succeeds but leaves the free weight's slot at its default. |
| LambdaMuProperties.SetCorrectedWritesEveryFreeWeight | cafe/lambdamu.cpp:155-158 | Corrected, when the record's lambda count equals the lambdas supplied (always so without a tree), every successful clustered set ends the vector with all K - 1 free weights, in order. |
| LambdaMuProperties.TreeEmptyMuCopyReportedAsOverrun | cafe/lambdamu.cpp:160-170 | Tree, no clusters, one lambda, one mu set aside by `-eqbg`, record lambda count 2: the mu copy has no values but starts at slot 2 of the one-slot vector, and the model reports `Overrun(Mus, 2, 0, 1)` where the source writes nothing. |
| LambdaMuProperties.TreeEqbgExample | cafe/lambdamu.cpp:160-170 | Two tree classes with `-eqbg`: three values expected, and the vector is [lambda1, lambda2, mu1]. |

## Left out

- `lambdamu_args::load` (lines 22-45): argument parsing. The model starts from the parsed `Args`.
- `cafe_cmd_lambdamu` (lines 215-261): command dispatch, tree lookup, the optimiser run and output. These are I/O and calls into code outside this file.
- `checkconv` (line 99): a flag copied into the record, with no effect on layout or counts.
- `initialize_params_and_k_weights`: lives outside this file. It is modelled as a vector of `numParams` default slots. Its setup of the K-weight array (`INIT_KWEIGHTS`) is not part of this model.
- `phylogeny_string`, `command()` and `args()`: opaque texts, given as strings.
- Counting.GetNumParams: does not model `size_t` arithmetic modulo 2^64, so `CountDefined` excludes the inputs where `mus.size() - eqbg` would wrap. Line 57 is never reached that way: both callers resize the mus to one value and reject `-eqbg` without a tree first. With a tree and clusters (line 64), `-eqbg` with no mus at all wraps the subtraction. That happens only when `-m` is given no values, since `-t` otherwise sizes the mus to the lambda classes (line 33). Modulo 2^64 the wrapped terms cancel, and the count comes out as (L - 1)(K - F) + K - 1.
- Counting.GetNumParams: does not model the truncation of its `size_t` result to the `int` it returns (line 47). The count is an unbounded natural, because real counts are far below 2^31.
- Validation.Validate: does not model `int expected` (line 102). The expected count is an unbounded natural, compared as such with the supplied count.
- LambdaMu.Set, LambdaMu.SetCorrected, LambdaMu.StageSet and Layout.Plan: for the same missing modulo-2^64 arithmetic, each requires `eqbg <= |mus|` with a tree. With clusters, no mus and `-eqbg`, the source wraps `num_mus` (line 148) but clamps both copies with `min`. The mu copy at line 153 copies nothing, and the weight copy at line 158 copies K - 1 weights. They land at offset (n - 1)(K - F), where n is the record's lambda count, once `first_k_weight` (line 155) is truncated to `int`. Without clusters the count at line 161 wraps as well, and the mu copy at line 169 is asked for about 2^64 values: undefined behaviour far past any vector.
- LambdaMu.PrepareSearch: requires `eqbg <= |mus|` with a tree and clusters only because it calls `get_num_params` (line 97). It copies no values, so the wrapped case would only change the count it records.
- Layout.Plan: does not model truncation of the `size_t` products to `int` for `first_mu` and `first_k_weight` (lines 152, 155, 193, 197). Offsets are unbounded naturals, because real counts are far below 2^31.
- Layout.Apply: reports a copy of no values that starts past the end of the vector as `Overrun`, although the source's copy writes nothing there. The model keeps one bound for every copy, its end within the vector. This arises only when the record's lambda count exceeds the lambdas supplied: at line 169 when `-eqbg` sets aside every mu, and at lines 153 and 158 when the `min` count is 0. `LambdaMuProperties.TreeEmptyMuCopyReportedAsOverrun` shows one such input.
- LambdaMu.Set, LambdaMu.SetCorrected: report `Overrun` for those empty copies too, as `Layout.Apply` does, where the source succeeds.
- LambdaMu.SetCorrected: does not restate the record fields (`eqbg`, K, F) that `LambdaMu.Set` states. `StageSet` sets them identically in both.
- Floating-point values are never computed on, so the element type is abstract.

## Findings

| source | as written | input that shows it | evidently intended | confidence | as-written member | corrected member |
|---|---|---|---|---|---|---|
| cafe/lambdamu.cpp:158 | With a tree and clusters, the weight copy writes `min(num_mus, K - 1)` values, where `num_mus = (mus - eqbg)(K - F)`. Whenever that is below K - 1, free weights the user supplied are silently dropped. | Tree, 1 lambda, 1 mu, `-eqbg`, K = 2 weights, F = 0, 3 values: the count validates, but the single free weight's slot keeps its default (vector [x, blank, blank]). | Copy all K - 1 free weights, as the branch without a tree does (line 198). | medium, not executed | LambdaMuProperties.TreeClusteredDropsWeight | LambdaMuProperties.SetCorrectedWritesEveryFreeWeight |

=== FILE: basics.dfy ===
/** Small building blocks shared by the lambda/mu model: an optional value,
    the 0/1 flags of the C structures, and decimal rendering of counts as the
    `ostream << int` in the error message produces it. */
module Basics {

  datatype Option<+T> = None | Some(value: T)

  /** A C `int` flag that the command only ever sets to 0 or 1
      (`fixcluster0`, `eqbg`). */
  type Bit = b: nat | b <= 1

  function Min(x: nat, y: nat): (m: nat)
    ensures m <= x && m <= y
    ensures m == x || m == y
  {
    if x <= y then x else y
  }

  /** The product `n * k` of two sizes, as repeated addition. Offsets and
      counts are built from it so that proofs about them unfold a definition
      instead of reasoning about nonlinear arithmetic. */
  function Times(n: nat, k: nat): nat
    decreases k
  {
    if k == 0 then 0 else Times(n, k - 1) + n
  }

  lemma {:induction false} TimesIsProduct(n: nat, k: nat)
    ensures Times(n, k) == n * k
    decreases k
  {
    if k > 0 {
      TimesIsProduct(n, k - 1);
    }
  }

  /** `n` copies of `v`, such as a vector freshly sized with a default. */
  function Filled<T>(n: nat, v: T): (s: seq<T>)
    ensures |s| == n
    ensures forall k :: 0 <= k < n ==> s[k] == v
  {
    if n == 0 then [] else Filled(n - 1, v) + [v]
  }

  predicate IsDigit(c: char) {
    '0' <= c <= '9'
  }

  predicate AllDigits(s: string) {
    forall i :: 0 <= i < |s| ==> IsDigit(s[i])
  }

  function DigitChar(d: nat): (c: char)
    requires d < 10
    ensures IsDigit(c)
  {
    (48 + d) as char
  }

  function DigitValue(c: char): (d: nat)
    requires IsDigit(c)
    ensures d < 10
    ensures DigitChar(d) == c
  {
    (c as int - 48) as nat
  }

  /** Decimal text of a count, most significant digit first, no leading zeros. */
  function NatToString(n: nat): (s: string)
    ensures 0 < |s|
    ensures AllDigits(s)
    ensures |s| == 1 <==> n < 10
    decreases n
  {
    if n < 10 then [DigitChar(n)] else NatToString(n / 10) + [DigitChar(n % 10)]
  }

  /** Reads decimal text back; the partner of NatToString. */
  function ParseNat(s: string): (n: nat)
    requires AllDigits(s)
    decreases |s|
  {
    if |s| == 0 then 0 else 10 * ParseNat(s[..|s| - 1]) + DigitValue(s[|s| - 1])
  }

  /** The decimal text of a count denotes exactly that count. */
  lemma {:induction false} ParseNatToString(n: nat)
    ensures ParseNat(NatToString(n)) == n
    decreases n
  {
    var s := NatToString(n);
    if n < 10 {
      assert s[..0] == [];
    } else {
      assert s[..|s| - 1] == NatToString(n / 10);
      ParseNatToString(n / 10);
    }
  }

  /** `s` ends with `t`. */
  ghost predicate EndsWith<T>(s: seq<T>, t: seq<T>) {
    |t| <= |s| && s[|s| - |t|..] == t
  }

  /** `t` occurs somewhere inside `s`. */
  predicate Contains(s: string, t: string) {
    exists i :: 0 <= i <= |s| && t <= s[i..]
  }
}

=== FILE: config.dfy ===
/** The data the lambda/mu command works on: the parsed command arguments
    (`lambdamu_args`), the slice of the global parameter record it touches
    (`CafeParam`), and the ways a call can end. Rates and weights are only ever
    copied, never computed on, so their element type is an opaque `T`. */
module Config {
  import opened Basics

  /** The three value families laid out in the flat parameter vector. */
  datatype Family = Lambdas | Mus | Weights

  /** The parsed arguments of one `lambdamu` invocation.
      `tree` is the rendered lambda tree (`lambda_tree` non-NULL) or None;
      `numParams` is the number of values the user supplied. */
  datatype Args<T> = Args(
    tree: Option<string>,
    lambdas: seq<T>,
    mus: seq<T>,
    kWeights: seq<T>,
    fixCluster0: Bit,
    eqbg: Bit,
    numParams: nat)
  {
    /** The cluster count K. */
    function K(): nat {
      |kWeights|
    }

    function Values(f: Family): seq<T> {
      match f
      case Lambdas => lambdas
      case Mus => mus
      case Weights => kWeights
    }
  }

  /** The fields of the global parameter record this command reads or writes.
      `numLambdas` is fixed by the lambda tree when one exists. */
  datatype Param<T> = Param(
    numLambdas: nat,
    numMus: nat,
    eqbg: Bit,
    kValue: nat,
    fixCluster0: Bit,
    numParams: nat,
    parameters: seq<T>)

  /** Why a call stops. `EqbgWithoutTree` and `CountMismatch` are the two
      runtime errors the command throws; `Overrun` stands for a copy that would
      run past the end of the parameter vector, which the source does not
      check for (undefined behaviour in C++); a copy of no values that starts
      past the end is reported too, although it would write nothing. */
  datatype Error =
    | EqbgWithoutTree
    | CountMismatch(observed: nat, expected: nat, tree: Option<string>, clusters: nat)
    | Overrun(family: Family, at: nat, count: nat, size: nat)

  datatype Result<+R> = Ok(value: R) | Err(error: Error)

  /** The parameter record as the call leaves it (the source updates several
      fields before it can throw), and the error it threw, if any. */
  datatype Outcome<T> = Outcome(param: Param<T>, error: Option<Error>)

  /** `std::vector::resize(1)`: keeps the first element, or appends a
      value-initialised one (`zero`) to an empty vector. */
  function ResizeToOne<T>(s: seq<T>, zero: T): (r: seq<T>)
    ensures |r| == 1
    ensures |s| > 0 ==> r[0] == s[0]
    ensures |s| == 0 ==> r[0] == zero
  {
    [if |s| == 0 then zero else s[0]]
  }

  /** Without a lambda tree both the search and the set path collapse the
      lambdas and mus to a single value each before counting. */
  function Normalise<T>(a: Args<T>, zero: T): (b: Args<T>)
    ensures a.tree.Some? ==> b == a
    ensures a.tree.None? ==> |b.lambdas| == 1 && |b.mus| == 1
    ensures a.tree.None? ==> b.lambdas[0] == (if |a.lambdas| > 0 then a.lambdas[0] else zero)
    ensures a.tree.None? ==> b.mus[0] == (if |a.mus| > 0 then a.mus[0] else zero)
    ensures b.tree == a.tree && b.kWeights == a.kWeights && b.numParams == a.numParams
    ensures b.eqbg == a.eqbg && b.fixCluster0 == a.fixCluster0
  {
    if a.tree.Some? then a
    else a.(lambdas := ResizeToOne(a.lambdas, zero), mus := ResizeToOne(a.mus, zero))
  }
}

=== FILE: counting.dfy ===
/** How many free parameters the command expects, per structural case:
    lambda tree or not (tree-specific rates), clustered (K > 0) or not. */
module Counting {
  import opened Basics
  import opened Config

  /** The unsigned subtraction `mus.size() - eqbg` in `get_num_params` is
      evaluated without a tree when unclustered, and with a tree when
      clustered; it must not wrap below zero. */
  predicate CountDefined<T>(a: Args<T>) {
    (a.tree.None? && a.K() == 0) || (a.tree.Some? && a.K() > 0) ==> a.eqbg <= |a.mus|
  }

  /** `lambdamu_args::get_num_params`: the count the search path uses. It is
      the intended count with clusters; without them it subtracts `eqbg` only
      where there is no tree, while the set path subtracts it only where
      there is one. */
  function GetNumParams<T>(a: Args<T>): (n: nat)
    requires CountDefined(a)
  {
    var L := |a.lambdas|;
    var M := |a.mus|;
    var K := a.K();
    if a.tree.None? then
      if K > 0 then
        var free: nat := K - a.fixCluster0;
        Times(L, free) + Times(M, free) + (K - 1)
      else
        L + (M - a.eqbg)
    else
      if K > 0 then
        var free: nat := K - a.fixCluster0;
        var freeMus: nat := M - a.eqbg;
        Times(L, free) + Times(freeMus, free) + (K - 1)
      else
        L + M
  }

  /** The count each branch of `lambdamu_set` validates against. Only the tree,
      unclustered branch differs from `get_num_params`: it subtracts `eqbg`. */
  function SetExpected<T>(a: Args<T>): (n: nat)
    requires a.tree.Some? ==> a.eqbg <= |a.mus|
  {
    if a.tree.Some? && a.K() == 0 then
      |a.lambdas| + (|a.mus| - a.eqbg)
    else if a.tree.None? && a.K() == 0 then
      |a.lambdas| + |a.mus|
    else
      GetNumParams(a)
  }

  /** The intended free-parameter count, stated per family: each of the
      K - F free clusters (one when unclustered) carries every lambda class and
      every mu class except the equal-background one, and K - 1 of the K
      mixture weights are free. */
  function IntendedCount<T>(a: Args<T>): (n: int) {
    var free := if a.K() > 0 then a.K() - a.fixCluster0 else 1;
    var freeMus := if a.tree.Some? then |a.mus| - a.eqbg else |a.mus|;
    var freeWeights := if a.K() > 0 then a.K() - 1 else 0;
    |a.lambdas| * free + freeMus * free + freeWeights
  }

  /** In every branch the set path accepts, it validates against the
      intended count. */
  lemma SetExpectedIsIntendedCount<T>(a: Args<T>)
    requires a.tree.Some? ==> a.eqbg <= |a.mus|
    ensures SetExpected(a) == IntendedCount(a)
  {
    FreeCountsAreProducts(a);
  }

  /** `get_num_params` agrees with the intended count except with a tree and
      no clusters, where it omits the equal-background reduction and so exceeds
      what the set path validates against by `eqbg`. */
  lemma GetNumParamsVersusIntended<T>(a: Args<T>)
    requires CountDefined(a)
    requires a.tree.Some? ==> a.eqbg <= |a.mus|
    requires a.tree.None? ==> a.eqbg == 0
    ensures a.tree.Some? && a.K() == 0 ==> GetNumParams(a) == IntendedCount(a) + a.eqbg
    ensures !(a.tree.Some? && a.K() == 0) ==> GetNumParams(a) == IntendedCount(a)
    ensures GetNumParams(a) == SetExpected(a) + (if a.tree.Some? && a.K() == 0 then a.eqbg else 0)
  {
    FreeCountsAreProducts(a);
  }

  /** The repeated additions of the count are the products `IntendedCount` uses. */
  lemma FreeCountsAreProducts<T>(a: Args<T>)
    requires a.K() > 0 && a.tree.Some? ==> a.eqbg <= |a.mus|
    ensures a.K() > 0 ==> Times(|a.lambdas|, a.K() - a.fixCluster0) == |a.lambdas| * (a.K() - a.fixCluster0)
    ensures a.K() > 0 ==> Times(|a.mus|, a.K() - a.fixCluster0) == |a.mus| * (a.K() - a.fixCluster0)
    ensures a.K() > 0 && a.tree.Some? ==>
      Times(|a.mus| - a.eqbg, a.K() - a.fixCluster0) == (|a.mus| - a.eqbg) * (a.K() - a.fixCluster0)
  {
    if a.K() > 0 {
      TimesIsProduct(|a.lambdas|, a.K() - a.fixCluster0);
      TimesIsProduct(|a.mus|, a.K() - a.fixCluster0);
      if a.tree.Some? {
        TimesIsProduct(|a.mus| - a.eqbg, a.K() - a.fixCluster0);
      }
    }
  }

  /** Fixing the first cluster removes exactly one cluster's worth of lambdas
      and free mus from the count, never more. */
  lemma FixedFirstClusterRemovesOneCluster<T>(a: Args<T>)
    requires a.K() > 0 && CountDefined(a)
    requires a.fixCluster0 == 1
    ensures GetNumParams(a) + |a.lambdas| + (if a.tree.Some? then |a.mus| - a.eqbg else |a.mus|)
         == GetNumParams(a.(fixCluster0 := 0))
  {
  }
}

=== FILE: lambdamu.dfy ===
/** The two ways the `lambdamu` command uses the parameter layout:
    `lambdamu_prepare_search` readies the parameter record for the optimiser,
    and `lambdamu_set` validates user-supplied rates and weights and copies them
    into the flat parameter vector. `zero` is the value-initialised rate that
    `vector::resize` appends; `blank` is the slot value with which
    `initialize_params_and_k_weights` fills a freshly sized vector. */
module LambdaMu {
  import opened Basics
  import opened Config
  import opened Counting
  import opened Validation
  import opened Layout

  /** The record as the search path leaves it once the configuration is
      accepted: cluster bookkeeping, the count, and a vector of that many
      default slots. */
  function ReadySearch<T>(p: Param<T>, b: Args<T>, blank: T): (r: Outcome<T>)
    requires CountDefined(b)
  {
    var p1 := if b.K() > 0 then p.(kValue := b.K(), fixCluster0 := b.fixCluster0) else p;
    var n := GetNumParams(b);
    Outcome(p1.(numParams := n, parameters := Filled(n, blank)), None)
  }

  /** `lambdamu_prepare_search`. */
  function PrepareSearch<T>(p: Param<T>, a: Args<T>, zero: T, blank: T): (r: Outcome<T>)
    requires a.tree.Some? && a.K() > 0 ==> a.eqbg <= |a.mus|
    ensures r.error.Some? <==> a.tree.None? && a.eqbg == 1
    ensures r.error.Some? ==> r.error.value == EqbgWithoutTree
    ensures r.error.Some? ==> r.param.parameters == p.parameters && r.param.numParams == p.numParams
    ensures r.error.None? ==> |r.param.parameters| == r.param.numParams
    ensures r.error.None? ==> forall k :: 0 <= k < |r.param.parameters| ==> r.param.parameters[k] == blank
    ensures a.tree.None? ==> r.param.numLambdas == 1 && r.param.numMus == 1
    ensures a.tree.None? && r.error.None? ==>
      r.param.numParams == (if a.K() > 0 then 2 * (a.K() - a.fixCluster0) + a.K() - 1 else 2)
    ensures a.tree.Some? ==> r.param.numLambdas == p.numLambdas && r.param.numMus == p.numMus
    ensures a.tree.Some? ==> r.param.eqbg == a.eqbg
    ensures a.K() > 0 && r.error.None? ==> r.param.kValue == a.K() && r.param.fixCluster0 == a.fixCluster0
    ensures a.K() == 0 ==> r.param.kValue == p.kValue && r.param.fixCluster0 == p.fixCluster0
  {
    if a.tree.Some? then
      ReadySearch(p.(eqbg := a.eqbg), a, blank)
    else
      var p1 := p.(numLambdas := 1, numMus := 1);
      if a.eqbg == 1 then
        Outcome(p1, Some(EqbgWithoutTree))
      else
        TimesIsProduct(1, if a.K() > 0 then a.K() - a.fixCluster0 else 0);
        ReadySearch(p1, Normalise(a, zero), blank)
  }

  /** The state `lambdamu_set` reaches before it validates: either the
      `-eqbg` rejection, or the updated record, the (normalised) arguments and
      the count they must match. */
  datatype Staged<T> =
    | Rejected(param: Param<T>)
    | Staged(param: Param<T>, args: Args<T>, expected: nat)

  function StageSet<T>(p: Param<T>, a: Args<T>, zero: T): (s: Staged<T>)
    requires a.tree.Some? ==> a.eqbg <= |a.mus|
    ensures s.Rejected? <==> a.tree.None? && a.eqbg == 1
    ensures s.Staged? ==> s.args == Normalise(a, zero) && s.expected == SetExpected(s.args)
    ensures s.param.parameters == p.parameters
    ensures s.param.numLambdas == (if a.tree.Some? then p.numLambdas else 1)
    ensures s.param.numMus == (if a.tree.Some? then p.numMus else 1)
    ensures a.tree.Some? ==> s.param.eqbg == a.eqbg
    ensures a.K() > 0 && s.Staged? ==> s.param.kValue == a.K() && s.param.fixCluster0 == a.fixCluster0
  {
    if a.tree.Some? then
      var p1 := p.(eqbg := a.eqbg);
      var p2 := if a.K() > 0 then p1.(kValue := a.K(), fixCluster0 := a.fixCluster0) else p1;
      Staged(p2.(numParams := SetExpected(a)), a, SetExpected(a))
    else
      var p1 := p.(numLambdas := 1, numMus := 1);
      var b := Normalise(a, zero);
      if a.eqbg == 1 then
        Rejected(p1)
      else
        var p2 := if a.K() > 0 then p1.(kValue := a.K(), fixCluster0 := a.fixCluster0) else p1;
        Staged(p2.(numParams := SetExpected(b)), b, SetExpected(b))
  }

  /** Validate, then size the vector with default slots, then copy. */
  function Finish<T>(p: Param<T>, a: Args<T>, expected: nat, plan: seq<Copy>, blank: T): (r: Outcome<T>)
    requires ReadsWithin(plan, a)
    ensures r.param.(parameters := p.parameters) == p
    ensures r.error.Some? ==> r.error.value.CountMismatch? || r.error.value.Overrun?
    ensures r.error.Some? && r.error.value.CountMismatch? <==> expected != a.numParams
    ensures r.error.Some? && r.error.value.CountMismatch? ==> r.param.parameters == p.parameters
    ensures r.error.None? ==> expected == a.numParams && Fits(plan, expected)
    ensures r.error.None? ==> r.param.parameters == Apply(Filled(expected, blank), plan, a).value
    ensures r.error.Some? && r.error.value.Overrun? ==> !Fits(plan, expected)
  {
    match Validate(a, expected)
    case Some(e) => Outcome(p, Some(e))
    case None =>
      var init := p.(parameters := Filled(expected, blank));
      match Apply(init.parameters, plan, a)
      case Err(e) => Outcome(init, Some(e))
      case Ok(v) => Outcome(init.(parameters := v), None)
  }

  /** `lambdamu_set`, with the copies exactly as written. */
  function Set<T>(p: Param<T>, a: Args<T>, zero: T, blank: T): (r: Outcome<T>)
    requires a.tree.Some? ==> a.eqbg <= |a.mus|
    ensures r.error == Some(EqbgWithoutTree) <==> a.tree.None? && a.eqbg == 1
    ensures r.error.Some? && r.error.value.CountMismatch? <==>
      !(a.tree.None? && a.eqbg == 1) && a.numParams != SetExpected(Normalise(a, zero))
    ensures r.error.Some? && !r.error.value.Overrun? ==> r.param.parameters == p.parameters
    ensures r.error.None? ==> r.param.numParams == a.numParams == |r.param.parameters|
    ensures a.tree.None? ==> r.param.numLambdas == 1 && r.param.numMus == 1
    ensures a.tree.Some? ==> r.param.numLambdas == p.numLambdas && r.param.numMus == p.numMus
    ensures a.tree.Some? ==> r.param.eqbg == a.eqbg
    ensures a.K() > 0 && r.error.None? ==> r.param.kValue == a.K() && r.param.fixCluster0 == a.fixCluster0
  {
    match StageSet(p, a, zero)
    case Rejected(p1) => Outcome(p1, Some(EqbgWithoutTree))
    case Staged(p1, b, expected) => Finish(p1, b, expected, Plan(p1.numLambdas, b), blank)
  }

  /** `lambdamu_set` with the tree, clustered weight copy corrected to copy all
      K - 1 free weights. */
  function SetCorrected<T>(p: Param<T>, a: Args<T>, zero: T, blank: T): (r: Outcome<T>)
    requires a.tree.Some? ==> a.eqbg <= |a.mus|
    ensures r.error == Some(EqbgWithoutTree) <==> a.tree.None? && a.eqbg == 1
    ensures r.error.Some? && r.error.value.CountMismatch? <==>
      !(a.tree.None? && a.eqbg == 1) && a.numParams != SetExpected(Normalise(a, zero))
    ensures r.error.Some? && !r.error.value.Overrun? ==> r.param.parameters == p.parameters
    ensures r.error.None? ==> r.param.numParams == a.numParams == |r.param.parameters|
    ensures a.tree.None? ==> r.param.numLambdas == 1 && r.param.numMus == 1
    ensures a.tree.Some? ==> r.param.numLambdas == p.numLambdas && r.param.numMus == p.numMus
  {
    match StageSet(p, a, zero)
    case Rejected(p1) => Outcome(p1, Some(EqbgWithoutTree))
    case Staged(p1, b, expected) => Finish(p1, b, expected, CorrectedPlan(p1.numLambdas, b), blank)
  }
}

=== FILE: layout.dfy ===
/** Where `lambdamu_set` writes user values into the flat parameter vector
    `input.parameters`: a lambda segment, then a mu segment, then (when
    clustered) all but the last mixture weight. Each copy is described by a
    `Copy` (which family, the offset it starts at, how many values) and a plan
    is applied copy after copy, as the source's `input_values_set_*` and
    `std::copy` calls do. */
module Layout {
  import opened Basics
  import opened Config
  import opened Counting

  /** Copy the first `count` values of family `from` to offsets `at`.. of the
      parameter vector. */
  datatype Copy = Copy(from: Family, at: nat, count: nat) {
    function End(): nat {
      at + count
    }
  }

  /** Every copy reads only values its source vector holds. */
  predicate ReadsWithin<T>(plan: seq<Copy>, a: Args<T>) {
    forall i :: 0 <= i < |plan| ==> plan[i].count <= |a.Values(plan[i].from)|
  }

  /** Every copy ends at or below `size`. */
  predicate Fits(plan: seq<Copy>, size: nat) {
    forall i :: 0 <= i < |plan| ==> plan[i].End() <= size
  }

  /** Copies are written in increasing order and never overlap. */
  predicate Ordered(plan: seq<Copy>) {
    forall i, j :: 0 <= i < j < |plan| ==> plan[i].End() <= plan[j].at
  }

  /** Some copy of the plan writes slot `k`. */
  predicate Covers(plan: seq<Copy>, k: nat) {
    exists i :: 0 <= i < |plan| && plan[i].at <= k < plan[i].End()
  }

  /** One copy: `count` values of `src` land at `at`.., everything else stays. */
  function Write<T>(dst: seq<T>, at: nat, src: seq<T>, count: nat): (r: seq<T>)
    requires count <= |src| && at + count <= |dst|
    ensures |r| == |dst|
    ensures forall k :: 0 <= k < |dst| && at <= k < at + count ==> r[k] == src[k - at]
    ensures forall k :: 0 <= k < |dst| && !(at <= k < at + count) ==> r[k] == dst[k]
  {
    dst[..at] + src[..count] + dst[at + count..]
  }

  /** Apply the copies in order. A copy that would run past the end of the
      vector stops the run with `Overrun`, even a copy of no values. */
  function Apply<T>(dst: seq<T>, plan: seq<Copy>, a: Args<T>): (r: Result<seq<T>>)
    requires ReadsWithin(plan, a)
    ensures r.Ok? <==> Fits(plan, |dst|)
    ensures r.Err? ==> r.error.Overrun? && r.error.size == |dst|
    ensures r.Ok? ==> |r.value| == |dst|
    ensures r.Ok? ==> forall k :: 0 <= k < |dst| && !Covers(plan, k) ==> r.value[k] == dst[k]
    decreases |plan|
  {
    if |plan| == 0 then
      Ok(dst)
    else
      var c := plan[0];
      if c.End() > |dst| then
        Err(Overrun(c.from, c.at, c.count, |dst|))
      else
        var rest := Apply(Write(dst, c.at, a.Values(c.from), c.count), plan[1..], a);
        assert rest.Ok? ==> forall k :: 0 <= k < |dst| && !Covers(plan, k) ==> !Covers(plan[1..], k) by {
          forall k | 0 <= k < |dst| && Covers(plan[1..], k)
            ensures Covers(plan, k)
          {
            var i :| 0 <= i < |plan[1..]| && plan[1..][i].at <= k < plan[1..][i].End();
            assert plan[i + 1] == plan[1..][i];
          }
        }
        assert Fits(plan, |dst|) <==> c.End() <= |dst| && Fits(plan[1..], |dst|) by {
          if c.End() <= |dst| && Fits(plan[1..], |dst|) {
            forall i | 0 <= i < |plan|
              ensures plan[i].End() <= |dst|
            {
              if i > 0 {
                assert plan[i] == plan[1..][i - 1];
              }
            }
          }
        }
        rest
  }

  /** With non-overlapping copies that fit, every slot a copy targets holds
      the source value it copies: the plan reads back from the vector. */
  lemma {:induction false} ApplyPlacesEveryCopy<T>(dst: seq<T>, plan: seq<Copy>, a: Args<T>)
    requires ReadsWithin(plan, a) && Ordered(plan) && Fits(plan, |dst|)
    ensures forall i, k :: 0 <= i < |plan| && plan[i].at <= k < plan[i].End() ==>
      Apply(dst, plan, a).value[k] == a.Values(plan[i].from)[k - plan[i].at]
    decreases |plan|
  {
    if |plan| > 0 {
      var c := plan[0];
      var next := Write(dst, c.at, a.Values(c.from), c.count);
      var tail := plan[1..];
      assert ReadsWithin(tail, a) && Ordered(tail) && Fits(tail, |next|) by {
        forall i | 0 <= i < |tail| ensures tail[i] == plan[i + 1] { }
      }
      ApplyPlacesEveryCopy(next, tail, a);
      var r := Apply(dst, plan, a).value;
      assert r == Apply(next, tail, a).value;
      forall i, k | 0 <= i < |plan| && plan[i].at <= k < plan[i].End()
        ensures r[k] == a.Values(plan[i].from)[k - plan[i].at]
      {
        if i > 0 {
          assert plan[i] == tail[i - 1];
        }
      }
    }
  }

  /** When the last copy ends exactly at the end of the vector, the vector's
      tail is the first values of that copy's family. */
  lemma LastCopyFillsTail<T>(dst: seq<T>, plan: seq<Copy>, a: Args<T>)
    requires ReadsWithin(plan, a) && Ordered(plan) && Fits(plan, |dst|)
    requires 0 < |plan| && plan[|plan| - 1].End() == |dst|
    ensures var c := plan[|plan| - 1];
      Apply(dst, plan, a).value[|dst| - c.count..] == a.Values(c.from)[..c.count]
  {
    var c := plan[|plan| - 1];
    var r := Apply(dst, plan, a).value;
    ApplyPlacesEveryCopy(dst, plan, a);
    forall j | 0 <= j < c.count
      ensures r[|dst| - c.count..][j] == a.Values(c.from)[..c.count][j]
    {
      assert c.at <= c.at + j < c.End();
      assert r[c.at + j] == a.Values(c.from)[c.at + j - c.at];
    }
  }

  /** The copies `lambdamu_set` issues, branch by branch, as written.
      `numLambdas` is the lambda count of the parameter record (fixed by the
      tree); the sizes are those of the argument vectors at the time of the
      copies. */
  function Plan<T>(numLambdas: nat, a: Args<T>): (plan: seq<Copy>)
    requires a.tree.Some? ==> a.eqbg <= |a.mus|
    ensures ReadsWithin(plan, a)
    ensures |plan| == (if a.K() > 0 then 3 else 2)
    ensures plan[0].from == Lambdas && plan[0].at == 0 && plan[1].from == Mus
    ensures a.K() > 0 ==> plan[2].from == Weights && plan[2].count <= a.K() - 1
  {
    var L := |a.lambdas|;
    var M := |a.mus|;
    var K := a.K();
    if a.tree.Some? then
      if K > 0 then
        var free: nat := K - a.fixCluster0;
        var freeMus := Times(M - a.eqbg, free);
        [ Copy(Lambdas, 0, Min(Times(L, free), L)),
          Copy(Mus, Times(numLambdas, free), Min(freeMus, M)),
          Copy(Weights, Times(numLambdas, free) + freeMus, Min(freeMus, K - 1)) ]
      else
        [ Copy(Lambdas, 0, L),
          Copy(Mus, numLambdas, M - a.eqbg) ]
    else
      if K > 0 then
        var free: nat := K - a.fixCluster0;
        [ Copy(Lambdas, 0, Min(L, Times(L, free))),
          Copy(Mus, Times(numLambdas, free), Min(M, Times(M, free))),
          Copy(Weights, Times(numLambdas, free) + Times(M, free), K - 1) ]
      else
        [ Copy(Lambdas, 0, L),
          Copy(Mus, L, M) ]
  }

  /** The plan with the tree, clustered weight copy fixed to copy all K - 1
      free weights, as the branch without a tree does. */
  function CorrectedPlan<T>(numLambdas: nat, a: Args<T>): (plan: seq<Copy>)
    requires a.tree.Some? ==> a.eqbg <= |a.mus|
    ensures ReadsWithin(plan, a)
    ensures |plan| == (if a.K() > 0 then 3 else 2)
    ensures forall i :: 0 <= i < |plan| && !(i == 2 && a.tree.Some?) ==> plan[i] == Plan(numLambdas, a)[i]
    ensures a.K() > 0 ==> plan[2] == Plan(numLambdas, a)[2].(count := a.K() - 1)
  {
    var p := Plan(numLambdas, a);
    if a.K() > 0 then p[2 := p[2].(count := a.K() - 1)] else p
  }

  /** Two copies in a row, the second starting where or after the first ends,
      ending at or below `size`. */
  lemma PairInBounds(plan: seq<Copy>, size: nat)
    requires |plan| == 2 && plan[0].End() <= plan[1].at && plan[1].End() <= size
    ensures Ordered(plan) && Fits(plan, size)
  {
  }

  /** The same for three copies in a row. */
  lemma TripleInBounds(plan: seq<Copy>, size: nat)
    requires |plan| == 3 && plan[0].End() <= plan[1].at && plan[1].End() <= plan[2].at
    requires plan[2].End() <= size
    ensures Ordered(plan) && Fits(plan, size)
  {
  }

  /** The overrun the source's author was unsure about cannot happen once the
      parameter record's lambda count equals the number of lambdas supplied
      (which the path without a tree forces): the segments start at 0, come in
      order without overlapping, and end at or below the validated count. */
  lemma PlanInBounds<T>(numLambdas: nat, a: Args<T>)
    requires a.tree.Some? ==> a.eqbg <= |a.mus|
    requires numLambdas == |a.lambdas|
    ensures Ordered(Plan(numLambdas, a))
    ensures Fits(Plan(numLambdas, a), SetExpected(a))
    ensures Ordered(CorrectedPlan(numLambdas, a))
    ensures Fits(CorrectedPlan(numLambdas, a), SetExpected(a))
    ensures a.K() > 0 ==> CorrectedPlan(numLambdas, a)[2].End() == SetExpected(a)
  {
    var p := Plan(numLambdas, a);
    var q := CorrectedPlan(numLambdas, a);
    if a.K() > 0 {
      ClusteredSegments(numLambdas, a);
      assert q[0] == p[0] && q[1] == p[1] && q[2] == p[2].(count := a.K() - 1);
      TripleInBounds(p, SetExpected(a));
      TripleInBounds(q, SetExpected(a));
    } else {
      UnclusteredSegments(numLambdas, a);
      assert q == p;
      PairInBounds(p, SetExpected(a));
    }
  }

  /** The ordering half of `PlanInBounds` on its own. */
  lemma PlansOrdered<T>(numLambdas: nat, a: Args<T>)
    requires a.tree.Some? ==> a.eqbg <= |a.mus|
    requires numLambdas == |a.lambdas|
    ensures Ordered(Plan(numLambdas, a)) && Ordered(CorrectedPlan(numLambdas, a))
  {
    PlanInBounds(numLambdas, a);
  }

  /** The clustered branches: the lambda segment ends where the mu segment
      starts, the mu segment ends where the weights start, and K - 1 slots
      after that is the validated count. */
  lemma ClusteredSegments<T>(numLambdas: nat, a: Args<T>)
    requires a.tree.Some? ==> a.eqbg <= |a.mus|
    requires numLambdas == |a.lambdas| && a.K() > 0
    ensures var p := Plan(numLambdas, a);
      p[0].End() <= p[1].at && p[1].End() <= p[2].at && p[2].at + a.K() - 1 == SetExpected(a)
  {
  }

  /** The unclustered branches: the mus follow the lambdas and end at the
      validated count. */
  lemma UnclusteredSegments<T>(numLambdas: nat, a: Args<T>)
    requires a.tree.Some? ==> a.eqbg <= |a.mus|
    requires numLambdas == |a.lambdas| && a.K() == 0
    ensures var p := Plan(numLambdas, a);
      p[0].End() == p[1].at && p[1].End() == SetExpected(a)
  {
  }

  /** Without a tree the command has collapsed to one lambda and one mu: with
      K - F > 0 free clusters each family gets a block of K - F slots of which
      only the first is copied, and the weights follow the two blocks. */
  lemma NoTreeClusteredPlan<T>(a: Args<T>)
    requires a.tree.None? && |a.lambdas| == 1 && |a.mus| == 1 && a.K() > a.fixCluster0
    ensures var free := a.K() - a.fixCluster0;
      Plan(1, a) == [Copy(Lambdas, 0, 1), Copy(Mus, free, 1), Copy(Weights, 2 * free, a.K() - 1)]
  {
    TimesIsProduct(1, a.K() - a.fixCluster0);
  }

  /** With a tree and no clusters: all lambdas at 0, and all mus but the
      equal-background one from the record's lambda count on. */
  lemma TreeUnclusteredPlan<T>(numLambdas: nat, a: Args<T>)
    requires a.tree.Some? && a.K() == 0 && a.eqbg <= |a.mus|
    ensures Plan(numLambdas, a) == [Copy(Lambdas, 0, |a.lambdas|), Copy(Mus, numLambdas, |a.mus| - a.eqbg)]
  {
  }

  /** Tree, no clusters: the mu copy ends past the count just validated, and
      the plan does not fit, exactly when the record holds more lambdas than
      were supplied. The copy then really writes past the vector unless
      `-eqbg` leaves it no mus to copy. */
  lemma TreeUnclusteredOverrunsIff<T>(numLambdas: nat, a: Args<T>)
    requires a.tree.Some? && a.K() == 0 && a.eqbg <= |a.mus|
    ensures Plan(numLambdas, a)[1].End() > SetExpected(a) <==> numLambdas > |a.lambdas|
    ensures !Fits(Plan(numLambdas, a), SetExpected(a)) <==> numLambdas > |a.lambdas|
    ensures Plan(numLambdas, a)[1].count > 0 && Plan(numLambdas, a)[1].End() > SetExpected(a) <==>
      numLambdas > |a.lambdas| && |a.mus| > a.eqbg
  {
    TreeUnclusteredPlan(numLambdas, a);
  }

  /** Tree, clusters: the mu copy starts before the lambda copy ends, so the
      copies are out of order, exactly when the record's lambda count times
      the free clusters is below the number of lambdas copied. */
  lemma TreeClusteredOverlapsIff<T>(numLambdas: nat, a: Args<T>)
    requires a.tree.Some? && a.K() > 0 && a.eqbg <= |a.mus|
    ensures var free := a.K() - a.fixCluster0;
      !Ordered(Plan(numLambdas, a)) <==> numLambdas * free < Min(|a.lambdas| * free, |a.lambdas|)
  {
    var free := a.K() - a.fixCluster0;
    TimesIsProduct(numLambdas, free);
    TimesIsProduct(|a.lambdas|, free);
    var p := Plan(numLambdas, a);
    assert p[0].End() == Min(Times(|a.lambdas|, free), |a.lambdas|);
    assert p[1].at == Times(numLambdas, free);
    assert p[1].End() <= p[2].at;
    if p[0].End() <= p[1].at {
      TripleInBounds(p, p[2].End());
    }
  }
}

=== FILE: properties.dfy ===
/** Properties of the lambda/mu command that relate several calls or state
    what the layout places where. */
module LambdaMuProperties {
  import opened Basics
  import opened Config
  import opened Counting
  import opened Layout
  import opened LambdaMu

  /** When the record's lambda count matches the lambdas supplied (forced
      without a tree), no branch of the set path writes past the vector, as
      written or corrected. */
  lemma SetNeverOverruns<T>(p: Param<T>, a: Args<T>, zero: T, blank: T)
    requires a.tree.Some? ==> a.eqbg <= |a.mus| && p.numLambdas == |a.lambdas|
    ensures Set(p, a, zero, blank).error.Some? ==> !Set(p, a, zero, blank).error.value.Overrun?
    ensures SetCorrected(p, a, zero, blank).error.Some? ==> !SetCorrected(p, a, zero, blank).error.value.Overrun?
  {
    match StageSet(p, a, zero)
    case Rejected(_) =>
    case Staged(p1, b, expected) =>
      PlanInBounds(p1.numLambdas, b);
  }

  /** When the record's lambda count matches the lambdas supplied, the set
      succeeds exactly when `-eqbg` is not misused and the supplied count is
      the one its branch expects; as written and corrected alike. */
  lemma SetSucceedsIffCountMatches<T>(p: Param<T>, a: Args<T>, zero: T, blank: T)
    requires a.tree.Some? ==> a.eqbg <= |a.mus| && p.numLambdas == |a.lambdas|
    ensures Set(p, a, zero, blank).error.None? <==>
      !(a.tree.None? && a.eqbg == 1) && a.numParams == SetExpected(Normalise(a, zero))
    ensures SetCorrected(p, a, zero, blank).error.None? <==>
      !(a.tree.None? && a.eqbg == 1) && a.numParams == SetExpected(Normalise(a, zero))
  {
    SetNeverOverruns(p, a, zero, blank);
  }

  /** A successful finish with non-overlapping copies leaves every targeted
      slot holding the copied value and every other slot at its default. */
  lemma FinishPlacesValues<T>(p: Param<T>, b: Args<T>, expected: nat, plan: seq<Copy>, blank: T)
    requires ReadsWithin(plan, b) && Ordered(plan)
    requires Finish(p, b, expected, plan, blank).error.None?
    ensures var r := Finish(p, b, expected, plan, blank).param.parameters;
      && (forall i, k :: 0 <= i < |plan| && plan[i].at <= k < plan[i].End() ==>
            r[k] == b.Values(plan[i].from)[k - plan[i].at])
      && (forall k :: 0 <= k < |r| && !Covers(plan, k) ==> r[k] == blank)
  {
    ApplyPlacesEveryCopy(Filled(expected, blank), plan, b);
  }

  /** A successful set leaves every slot a copy targets holding the copied
      user value, and every other slot at its default. */
  lemma SetPlacesValues<T>(p: Param<T>, a: Args<T>, zero: T, blank: T)
    requires a.tree.Some? ==> a.eqbg <= |a.mus| && p.numLambdas == |a.lambdas|
    requires Set(p, a, zero, blank).error.None?
    ensures var r := Set(p, a, zero, blank).param;
      var b := Normalise(a, zero);
      var plan := Plan(r.numLambdas, b);
      && Fits(plan, |r.parameters|)
      && (forall i, k :: 0 <= i < |plan| && plan[i].at <= k < plan[i].End() ==>
            r.parameters[k] == b.Values(plan[i].from)[k - plan[i].at])
      && (forall k :: 0 <= k < |r.parameters| && !Covers(plan, k) ==> r.parameters[k] == blank)
  {
    match StageSet(p, a, zero)
    case Staged(p1, b, expected) =>
      var plan := Plan(p1.numLambdas, b);
      var out := Finish(p1, b, expected, plan, blank);
      assert Set(p, a, zero, blank) == out;
      assert b == Normalise(a, zero) && out.param.numLambdas == p1.numLambdas;
      PlansOrdered(p1.numLambdas, b);
      FinishPlacesValues(p1, b, expected, plan, blank);
  }

  /** Without a tree or clusters, the set path expects exactly two values and
      writes the (first) lambda and the (first) mu, in that order. */
  lemma NoTreeUnclusteredSet<T>(p: Param<T>, a: Args<T>, zero: T, blank: T)
    requires a.tree.None? && a.eqbg == 0 && a.K() == 0
    ensures Set(p, a, zero, blank).error.None? <==> a.numParams == 2
    ensures a.numParams != 2 ==> Set(p, a, zero, blank).error == Some(CountMismatch(a.numParams, 2, None, 0))
    ensures Set(p, a, zero, blank).error.None? ==>
      Set(p, a, zero, blank).param.parameters == [ResizeToOne(a.lambdas, zero)[0], ResizeToOne(a.mus, zero)[0]]
  {
    if a.numParams == 2 {
      var b := Normalise(a, zero);
      var plan := Plan(1, b);
      assert plan == [Copy(Lambdas, 0, 1), Copy(Mus, 1, 1)];
      SetPlacesValues(p, a, zero, blank);
      var r := Set(p, a, zero, blank).param.parameters;
      assert r[0] == b.lambdas[0];
      assert r[1] == b.mus[1 - 1];
    }
  }

  /** With a tree and no clusters, the set path succeeds exactly when the
      lambdas plus all mus but the equal-background one are supplied. */
  lemma TreeUnclusteredCount<T>(p: Param<T>, a: Args<T>, zero: T, blank: T)
    requires a.tree.Some? && a.K() == 0 && a.eqbg <= |a.mus| && p.numLambdas == |a.lambdas|
    ensures Set(p, a, zero, blank).error.None? <==> a.numParams == |a.lambdas| + |a.mus| - a.eqbg
  {
    SetNeverOverruns(p, a, zero, blank);
  }

  /** With a tree and no clusters, the set path expects the lambdas plus all
      mus but the equal-background one, copies every lambda from offset 0 and
      exactly |mus| - eqbg mus from the record's lambda count on. */
  lemma TreeUnclusteredSet<T>(p: Param<T>, a: Args<T>, zero: T, blank: T)
    requires a.tree.Some? && a.K() == 0 && a.eqbg <= |a.mus| && p.numLambdas == |a.lambdas|
    ensures Set(p, a, zero, blank).error.None? <==> a.numParams == |a.lambdas| + |a.mus| - a.eqbg
    ensures Set(p, a, zero, blank).error.None? ==>
      var r := Set(p, a, zero, blank).param.parameters;
      && |r| == |a.lambdas| + |a.mus| - a.eqbg
      && (forall j :: 0 <= j < |a.lambdas| ==> r[j] == a.lambdas[j])
      && (forall j :: 0 <= j < |a.mus| - a.eqbg ==> r[p.numLambdas + j] == a.mus[j])
  {
    TreeUnclusteredCount(p, a, zero, blank);
    if Set(p, a, zero, blank).error.None? {
      var plan := Plan(p.numLambdas, a);
      TreeUnclusteredPlan(p.numLambdas, a);
      SetPlacesValues(p, a, zero, blank);
      var r := Set(p, a, zero, blank).param.parameters;
      forall j | 0 <= j < |a.lambdas|
        ensures r[j] == a.lambdas[j]
      {
        assert plan[0].at <= j < plan[0].End();
      }
      forall j | 0 <= j < |a.mus| - a.eqbg
        ensures r[p.numLambdas + j] == a.mus[j]
      {
        assert plan[1].at <= p.numLambdas + j < plan[1].End();
      }
    }
  }

  /** Search preparation and set mode reject `-eqbg` without a tree alike,
      collapse to one lambda without a tree alike, and size the vector alike
      except with a tree and no clusters, where the search count exceeds the
      set count by `eqbg`. */
  lemma SearchAndSetAgree<T>(p: Param<T>, a: Args<T>, zero: T, blank: T)
    requires a.tree.Some? ==> a.eqbg <= |a.mus|
    ensures PrepareSearch(p, a, zero, blank).error.Some? <==> Set(p, a, zero, blank).error == Some(EqbgWithoutTree)
    ensures PrepareSearch(p, a, zero, blank).param.numLambdas == Set(p, a, zero, blank).param.numLambdas
    ensures PrepareSearch(p, a, zero, blank).error.None? ==>
      PrepareSearch(p, a, zero, blank).param.numParams
        == SetExpected(Normalise(a, zero)) + (if a.tree.Some? && a.K() == 0 then a.eqbg else 0)
  {
    if PrepareSearch(p, a, zero, blank).error.None? {
      GetNumParamsVersusIntended(Normalise(a, zero));
    }
  }

  /** As written, the tree, clustered branch copies min((|mus| - eqbg)(K - F), K - 1)
      weights, so with one mu class under `-eqbg` and two clusters the single
      free weight is never written: its slot keeps the default. */
  lemma TreeClusteredDropsWeight<T>(p: Param<T>, x: T, w: T, zero: T, blank: T)
    requires p.numLambdas == 1
    ensures var a := Args(Some("t"), [x], [x], [w, w], 0, 1, 3);
      && Plan(1, a)[2] == Copy(Weights, 2, 0)
      && Set(p, a, zero, blank).error.None?
      && Set(p, a, zero, blank).param.parameters == [x, blank, blank]
  {
    var a := Args(Some("t"), [x], [x], [w, w], 0, 1, 3);
    assert Times(1, 2) == 2 && Times(0, 2) == 0;
    assert SetExpected(a) == 3;
    assert Normalise(a, zero) == a;
    var plan := Plan(1, a);
    assert plan == [Copy(Lambdas, 0, 1), Copy(Mus, 2, 0), Copy(Weights, 2, 0)];
    var out := Set(p, a, zero, blank);
    assert out.error.None? by {
      SetNeverOverruns(p, a, zero, blank);
    }
    assert out.param.numLambdas == 1 && |out.param.parameters| == 3;
    SetPlacesValues(p, a, zero, blank);
    var r := out.param.parameters;
    assert !Covers(plan, 1) && !Covers(plan, 2);
    assert r[0] == x;
  }

  /** The corrected set places values the same way `SetPlacesValues` states
      for the set as written. */
  lemma SetCorrectedPlacesValues<T>(p: Param<T>, a: Args<T>, zero: T, blank: T)
    requires a.tree.Some? ==> a.eqbg <= |a.mus| && p.numLambdas == |a.lambdas|
    requires SetCorrected(p, a, zero, blank).error.None?
    ensures var r := SetCorrected(p, a, zero, blank).param;
      var b := Normalise(a, zero);
      var plan := CorrectedPlan(r.numLambdas, b);
      && Fits(plan, |r.parameters|)
      && (forall i, k :: 0 <= i < |plan| && plan[i].at <= k < plan[i].End() ==>
            r.parameters[k] == b.Values(plan[i].from)[k - plan[i].at])
      && (forall k :: 0 <= k < |r.parameters| && !Covers(plan, k) ==> r.parameters[k] == blank)
  {
    match StageSet(p, a, zero)
    case Staged(p1, b, expected) =>
      var plan := CorrectedPlan(p1.numLambdas, b);
      var out := Finish(p1, b, expected, plan, blank);
      assert SetCorrected(p, a, zero, blank) == out;
      assert b == Normalise(a, zero) && out.param.numLambdas == p1.numLambdas;
      PlansOrdered(p1.numLambdas, b);
      FinishPlacesValues(p1, b, expected, plan, blank);
  }

  /** The corrected, clustered plan applied to a vector of the validated size
      fits, and leaves all K - 1 free weights at the end of the vector. */
  lemma CorrectedPlanEndsWithWeights<T>(dst: seq<T>, numLambdas: nat, b: Args<T>)
    requires b.tree.Some? ==> b.eqbg <= |b.mus|
    requires numLambdas == |b.lambdas| && b.K() > 0 && |dst| == SetExpected(b)
    ensures Apply(dst, CorrectedPlan(numLambdas, b), b).Ok?
    ensures EndsWith(Apply(dst, CorrectedPlan(numLambdas, b), b).value, b.kWeights[..b.K() - 1])
  {
    var plan := CorrectedPlan(numLambdas, b);
    assert |plan| == 3 && Ordered(plan) && Fits(plan, |dst|) && plan[2].End() == |dst| by {
      PlanInBounds(numLambdas, b);
    }
    LastCopyFillsTail(dst, plan, b);
    var c := plan[2];
    assert c.from == Weights && c.count == b.K() - 1;
    assert b.Values(c.from)[..c.count] == b.kWeights[..b.K() - 1];
  }

  /** Corrected, every clustered set ends the vector with all K - 1 free
      weights, in order; the last weight is not copied. */
  lemma SetCorrectedWritesEveryFreeWeight<T>(p: Param<T>, a: Args<T>, zero: T, blank: T)
    requires a.tree.Some? ==> a.eqbg <= |a.mus| && p.numLambdas == |a.lambdas|
    requires a.K() > 0
    requires SetCorrected(p, a, zero, blank).error.None?
    ensures EndsWith(SetCorrected(p, a, zero, blank).param.parameters, a.kWeights[..a.K() - 1])
  {
    var p1 := StageSet(p, a, zero).param;
    var b := Normalise(a, zero);
    var plan := CorrectedPlan(p1.numLambdas, b);
    SetCorrectedIsFinish(p, a, zero, blank);
    var out := Finish(p1, b, SetExpected(b), plan, blank);
    assert out.param.parameters == Apply(Filled(SetExpected(b), blank), plan, b).value;
    assert p1.numLambdas == |b.lambdas| && b.kWeights == a.kWeights;
    CorrectedPlanEndsWithWeights(Filled(SetExpected(b), blank), p1.numLambdas, b);
  }

  /** Past the `-eqbg` check the corrected set is the staged finish. */
  lemma SetCorrectedIsFinish<T>(p: Param<T>, a: Args<T>, zero: T, blank: T)
    requires a.tree.Some? ==> a.eqbg <= |a.mus|
    requires !(a.tree.None? && a.eqbg == 1)
    ensures var p1 := StageSet(p, a, zero).param;
      var b := Normalise(a, zero);
      SetCorrected(p, a, zero, blank) == Finish(p1, b, SetExpected(b), CorrectedPlan(p1.numLambdas, b), blank)
  {
  }

  /** Two tree classes with `-eqbg` and no clusters: three values expected,
      both lambdas and only the first mu written. */
  lemma TreeEqbgExample<T>(p: Param<T>, l1: T, l2: T, m1: T, m2: T, zero: T, blank: T)
    requires p.numLambdas == 2
    ensures var a := Args(Some("t"), [l1, l2], [m1, m2], [], 0, 1, 3);
      Set(p, a, zero, blank) == Outcome(p.(eqbg := 1, numParams := 3, parameters := [l1, l2, m1]), None)
  {
    var a := Args(Some("t"), [l1, l2], [m1, m2], [], 0, 1, 3);
    TreeUnclusteredSet(p, a, zero, blank);
    var r := Set(p, a, zero, blank).param.parameters;
    assert r[p.numLambdas + 0] == a.mus[0];
  }

  /** Tree, no clusters, the only mu set aside by `-eqbg`, and a record lambda
      count above the lambdas supplied: the mu copy copies nothing but starts
      past the end of the one-slot vector, and the model reports it as an
      overrun, although the copy would write nothing. */
  lemma TreeEmptyMuCopyReportedAsOverrun<T>(p: Param<T>, x: T, y: T, zero: T, blank: T)
    requires p.numLambdas == 2
    ensures var a := Args(Some("t"), [x], [y], [], 0, 1, 1);
      Set(p, a, zero, blank) ==
        Outcome(p.(eqbg := 1, numParams := 1, parameters := [blank]), Some(Overrun(Mus, 2, 0, 1)))
  {
    var a := Args(Some("t"), [x], [y], [], 0, 1, 1);
    var plan := Plan(2, a);
    assert plan == [Copy(Lambdas, 0, 1), Copy(Mus, 2, 0)];
    var w := Write(Filled(1, blank), 0, [x], 1);
    assert Apply(w, plan[1..], a) == Err(Overrun(Mus, 2, 0, 1));
    assert Filled(1, blank) == [blank];
  }

  /** The correction touches only the tree, clustered branch: everywhere else
      the corrected set is the set as written. */
  lemma CorrectionOnlyChangesTreeClustered<T>(p: Param<T>, a: Args<T>, zero: T, blank: T)
    requires a.tree.Some? ==> a.eqbg <= |a.mus|
    requires a.tree.None? || a.K() == 0
    ensures SetCorrected(p, a, zero, blank) == Set(p, a, zero, blank)
  {
    match StageSet(p, a, zero)
    case Rejected(_) =>
    case Staged(p1, b, expected) =>
      var plan := Plan(p1.numLambdas, b);
      assert CorrectedPlan(p1.numLambdas, b) == plan by {
        if b.K() > 0 {
          assert plan[2].count == b.K() - 1;
          assert plan[2 := plan[2]] == plan;
        }
      }
  }

  /** Without a tree and with clusters, the set path expects one lambda and one
      mu per free cluster plus K - 1 weights, and nothing else can fail. */
  lemma NoTreeClusteredCount<T>(p: Param<T>, a: Args<T>, zero: T, blank: T)
    requires a.tree.None? && a.eqbg == 0 && a.K() > 0
    ensures Set(p, a, zero, blank).error.None? <==>
      a.numParams == 2 * (a.K() - a.fixCluster0) + a.K() - 1
  {
    TimesIsProduct(1, a.K() - a.fixCluster0);
    assert SetExpected(Normalise(a, zero)) == 2 * (a.K() - a.fixCluster0) + a.K() - 1;
    SetNeverOverruns(p, a, zero, blank);
  }

  /** Without a tree, a clustered set given the expected number of values
      succeeds and ends the vector with the first K - 1 weights, in order. */
  lemma NoTreeClusteredWeights<T>(p: Param<T>, a: Args<T>, zero: T, blank: T)
    requires a.tree.None? && a.eqbg == 0 && a.K() > 0
    requires a.numParams == 2 * (a.K() - a.fixCluster0) + a.K() - 1
    ensures Set(p, a, zero, blank).error.None?
    ensures EndsWith(Set(p, a, zero, blank).param.parameters, a.kWeights[..a.K() - 1])
  {
    NoTreeClusteredCount(p, a, zero, blank);
    CorrectionOnlyChangesTreeClustered(p, a, zero, blank);
    SetCorrectedWritesEveryFreeWeight(p, a, zero, blank);
  }

  /** Without a tree, with K - F > 0 free clusters: the lambda opens the
      vector, the mu opens the second block of K - F slots, and the rest of
      both blocks keeps its default. */
  lemma NoTreeClusteredBlocks<T>(p: Param<T>, a: Args<T>, zero: T, blank: T)
    requires a.tree.None? && a.K() > a.fixCluster0
    requires Set(p, a, zero, blank).error.None?
    ensures var r := Set(p, a, zero, blank).param.parameters;
      var free := a.K() - a.fixCluster0;
      && 2 * free <= |r|
      && r[0] == ResizeToOne(a.lambdas, zero)[0]
      && r[free] == ResizeToOne(a.mus, zero)[0]
      && (forall k :: 0 < k < free || free < k < 2 * free ==> r[k] == blank)
  {
    var b := Normalise(a, zero);
    var free := a.K() - a.fixCluster0;
    var plan := Plan(1, b);
    NoTreeClusteredPlan(b);
    var r := Set(p, a, zero, blank).param.parameters;
    assert |r| == 2 * free + a.K() - 1 by {
      NoTreeClusteredCount(p, a, zero, blank);
    }
    SetPlacesValues(p, a, zero, blank);
    assert r[0] == b.lambdas[0] by {
      assert plan[0].at <= 0 < plan[0].End();
    }
    assert r[free] == b.mus[0] by {
      assert plan[1].at <= free < plan[1].End();
    }
    forall k | 0 < k < free || free < k < 2 * free
      ensures r[k] == blank
    {
      assert !Covers(plan, k);
    }
  }
}

=== FILE: validation.dfy ===
/** `lambda_arg_base::validate_parameter_count`: compares the number of values
    the user supplied with the number the structure calls for, and on a
    mismatch throws an error whose text explains what the expectation was
    based on. `command()` and `args()` are virtual texts of the argument class
    and the lambda tree's rendering is opaque, so all three are strings here. */
module Validation {
  import opened Basics
  import opened Config

  /** Throws (Some) exactly when the counts differ, carrying both counts and the
      tree and cluster context the message is built from; otherwise no effect. */
  function Validate<T>(a: Args<T>, expected: nat): (r: Option<Error>)
    ensures r.None? <==> expected == a.numParams
    ensures r.Some? ==> r.value.CountMismatch?
    ensures r.Some? ==> r.value.observed == a.numParams && r.value.expected == expected
    ensures r.Some? ==> r.value.tree == a.tree && r.value.clusters == |a.kWeights|
  {
    if expected != a.numParams then
      Some(CountMismatch(a.numParams, expected, a.tree, |a.kWeights|))
    else
      None
  }

  const Opening: string := "ERROR ("
  const NotCorrect: string := "): The total number of parameters was not correct.\n"
  const TotalOf: string := "The total number of "
  const Proportions: string := " and proportions (-p)"
  const BasedOn: string := "based on the "

  function CountsClause(observed: nat, expected: nat): string {
    " are " + NatToString(observed) + " but " + NatToString(expected) + " were expected\n"
  }

  function TreePart(tree: Option<string>): string {
    match tree
    case None => ""
    case Some(t) => "tree " + t
  }

  function ClusterPart(clusters: nat): string {
    if clusters > 0 then "the " + NatToString(clusters) + " clusters (-k)." else ""
  }

  /** What the expectation was based on: the tree, the clusters, both joined
      by " and ", or nothing. */
  function Basis(tree: Option<string>, clusters: nat): string {
    TreePart(tree) + (if tree.Some? && clusters > 0 then " and " else "") + ClusterPart(clusters)
  }

  /** Everything up to and including the `args()` text. */
  function Head(command: string, argsText: string): string {
    Opening + command + NotCorrect + TotalOf + argsText
  }

  /** The closing line naming what the expectation was based on. */
  function BasisLine(e: Error): string
    requires e.CountMismatch?
  {
    BasedOn + Basis(e.tree, e.clusters) + "\n"
  }

  /** Everything after the `args()` text. */
  function AfterHead(e: Error): string
    requires e.CountMismatch?
  {
    (if e.clusters > 0 then Proportions else "") + (CountsClause(e.observed, e.expected) + BasisLine(e))
  }

  /** The text of the thrown `runtime_error`: it opens by naming the command
      and closes the basis line with a newline. */
  function Render(e: Error, command: string, argsText: string): (m: string)
    requires e.CountMismatch?
    ensures Opening + command + NotCorrect <= m
    ensures |m| > 0 && m[|m| - 1] == '\n'
  {
    Head(command, argsText) + AfterHead(e)
  }

  /** The message states the supplied count and the expected count, in that
      order, each as decimal text that reads back as the count itself. */
  lemma RenderReportsCounts(e: Error, command: string, argsText: string)
    requires e.CountMismatch?
    ensures Contains(Render(e, command, argsText), CountsClause(e.observed, e.expected))
    ensures ParseNat(NatToString(e.observed)) == e.observed
    ensures ParseNat(NatToString(e.expected)) == e.expected
  {
    var pre := Head(command, argsText) + (if e.clusters > 0 then Proportions else "");
    var clause := CountsClause(e.observed, e.expected);
    var msg := Render(e, command, argsText);
    assert msg == pre + (clause + BasisLine(e));
    assert msg[|pre|..] == clause + BasisLine(e);
    assert clause <= msg[|pre|..];
    ParseNatToString(e.observed);
    ParseNatToString(e.expected);
  }

  /** " and proportions (-p)" follows the argument text exactly when there
      are clusters. */
  lemma ProportionsMentionedIffClusters(e: Error, command: string, argsText: string)
    requires e.CountMismatch?
    ensures |Head(command, argsText)| <= |Render(e, command, argsText)|
    ensures Proportions <= Render(e, command, argsText)[|Head(command, argsText)|..] <==> e.clusters > 0
  {
    var msg := Render(e, command, argsText);
    assert msg[|Head(command, argsText)|..] == AfterHead(e);
    AfterHeadOpensWithProportionsIff(e);
  }

  lemma AfterHeadOpensWithProportionsIff(e: Error)
    requires e.CountMismatch?
    ensures Proportions <= AfterHead(e) <==> e.clusters > 0
  {
    var tail := CountsClause(e.observed, e.expected) + BasisLine(e);
    if e.clusters == 0 {
      CountsClauseSecondIsR(e.observed, e.expected);
      assert tail[2] == 'r';
      assert Proportions[2] == 'n';
    } else {
      assert AfterHead(e) == Proportions + tail;
    }
  }

  lemma CountsClauseSecondIsR(observed: nat, expected: nat)
    ensures |CountsClause(observed, expected)| > 2 && CountsClause(observed, expected)[2] == 'r'
  {
  }

  /** The basis begins with "tree " exactly when there is a lambda tree. */
  lemma BasisMentionsTreeIff(tree: Option<string>, clusters: nat)
    ensures "tree " <= Basis(tree, clusters) <==> tree.Some?
  {
    if tree.Some? {
      TreeBasisStartsWithTree(tree.value, clusters);
    } else {
      TreelessBasisOmitsTree(clusters);
    }
  }

  lemma TreeBasisStartsWithTree(t: string, clusters: nat)
    ensures "tree " <= Basis(Some(t), clusters)
  {
    assert Basis(Some(t), clusters) == "tree " + (t + (if clusters > 0 then " and " else "") + ClusterPart(clusters));
  }

  lemma TreelessBasisOmitsTree(clusters: nat)
    ensures !("tree " <= Basis(None, clusters))
  {
    var b := Basis(None, clusters);
    if clusters > 0 {
      assert b == "the " + NatToString(clusters) + " clusters (-k).";
      assert b[1] == 'h';
    } else {
      assert b == [];
    }
  }

  /** Without clusters nothing follows the tree part; without a tree the basis
      holds no " and " joiner; with both, " and " sits right after the tree
      text. */
  lemma BasisJoinsOnlyWhenBoth(tree: Option<string>, clusters: nat)
    ensures clusters == 0 ==> Basis(tree, clusters) == TreePart(tree)
    ensures tree.None? ==> !Contains(Basis(tree, clusters), " and ")
    ensures tree.Some? && clusters > 0 ==>
      var n := |"tree " + tree.value|;
      n + 5 <= |Basis(tree, clusters)| && Basis(tree, clusters)[n..n + 5] == " and "
  {
    if tree.None? {
      assert Basis(tree, clusters) == ClusterPart(clusters);
      ClusterPartHasNoA(clusters);
      NoAMeansNoJoiner(ClusterPart(clusters));
    }
    if tree.Some? && clusters > 0 {
      var tp := "tree " + tree.value;
      assert Basis(tree, clusters) == tp + (" and " + ClusterPart(clusters));
    }
  }

  /** Text without an 'a' cannot hold " and ". */
  lemma NoAMeansNoJoiner(b: string)
    requires forall i :: 0 <= i < |b| ==> b[i] != 'a'
    ensures !Contains(b, " and ")
  {
    forall i | 0 <= i <= |b|
      ensures !(" and " <= b[i..])
    {
      if i + 1 < |b| {
        assert b[i..][1] == b[i + 1];
        assert " and "[1] == 'a';
      }
    }
  }

  lemma ClusterPartHasNoA(clusters: nat)
    ensures forall i :: 0 <= i < |ClusterPart(clusters)| ==> ClusterPart(clusters)[i] != 'a'
  {
    if clusters > 0 {
      var d := NatToString(clusters);
      var b := ClusterPart(clusters);
      assert b == "the " + d + " clusters (-k).";
      forall i | 0 <= i < |b|
        ensures b[i] != 'a'
      {
        if i < 4 {
        } else if i < 4 + |d| {
          assert b[i] == d[i - 4];
        } else {
          assert b[i] == " clusters (-k)."[i - 4 - |d|];
        }
      }
    }
  }
}
